=== FILE: README.md ===
# Video upload and playback server: a Dafny model

The application stores one uploaded video on the server and plays it back.
Two HTTP route handlers make up its server side:

- `POST /api/upload` (`src/app/api/upload/route.js`) validates a multipart
  upload and writes the file into the `videos` directory as `video<ext>`,
  where `<ext>` is the uploaded file name's extension;
- `GET /api/video` (`src/app/api/video/route.js`) lists that directory, takes
  the first name starting with `video`, and answers with the file's bytes and
  the content type `video/<ext without the dot>`.

This project models both handlers as pure functions over an abstract store.
The store is `Option<map<string, seq<byte>>>`, where `None` means the
`videos` directory does not exist yet. It proves what each handler
answers and how it changes the store, and what a sequence of uploads
followed by a playback request serves.

Modules, in dependency order:

| file | module | contents |
|---|---|---|
| common.dfy | `Common` | `Option`, `byte`, `Bytes` |
| text.dfy | `Text` | the JavaScript string operations the handlers call (`includes`, `startsWith`, `substring(1)`) and a `lastIndexOf` search, which this model's `path.extname` uses where Node's scans backwards |
| node_path.dfy | `NodePath` | Node's POSIX `path.extname`, written out |
| storage.dfy | `Storage` | the directory, the `video` stem, `readdir` listings, single-file writes |
| http.dfy | `Http` | responses: status, content type, body; how `new Response` normalises and checks a content type |
| upload_route.dfy | `UploadRoute` | the upload request, its ordered validation, `Upload` |
| video_route.dfy | `VideoRoute` | `Find`, `Get` and the listing-order lemmas |
| round_trip.dfy | `RoundTrip` | sequences of uploads followed by `Get`; the stale-file counterexample |
| single_slot.dfy | `SingleSlot` | the corrected upload, which replaces the stored video (see Findings) |

Modelling choices:

- A request is its `content-type` header, if sent, and its form body.
  `request.formData()` either throws (`Unparseable`) or yields the first
  `file` entry. That entry may be a file part (name, `type`, bytes) or a
  plain text field.
- The `type` the handler tests is the one the runtime's `File` reports,
  not the part's declaration. That runtime is Node.js: its `Blob` and
  `File` constructors follow the `type` rule of the W3C File API,
  section 3.1. `UploadRoute.BlobType` models that step.
  A declaration with a character outside U+0020 to U+007E gives the empty
  type. Otherwise the declaration is reported with its ASCII capitals
  lower-cased, so a part declared `Video/MP4` passes the video check.
- `file.size` is the length of the file's bytes.
- A `file` entry that is a text field is handled as JavaScript handles it.
  The empty string is falsy, so it gets "No file uploaded". A non-empty
  string has no `.type`, so `.type.startsWith` throws and the catch-all
  answers 500.
- `fs.readdir`'s order is unspecified, so `Get` takes the listing as an
  input. `Storage.IsListing` requires it to name every file exactly once.
  Every property of `Get` holds for all such listings, or says which
  listing produces which answer.
- `Get` returns only a `Response`, so by its type it cannot change the
  store.
- `new Response(fileBuffer, …)` runs inside `GET`'s `try`, and its
  `Headers` check the `video/<ext>` content type. Per the WebIDL
  `ByteString` conversion, a character above U+00FF makes the constructor
  throw. The Fetch standard's header-value rules then cut HTTP whitespace
  (tab, line feed, carriage return, space) off both ends. A NUL, carriage
  return or line feed left inside also makes it throw. A throw ends in the
  `catch` block's 500. `Http.FileResponse` models this step, so a stored
  `video.🎬` is answered with 500 and a stored `video.mp4 ` (trailing
  space) is sent as `video/mp4`.
- JSON bodies are kept as the one field they carry (`message` or `error`).

A `GET` before any upload might be expected to answer 404 ("not found").
The code answers 500, and this model follows the code: `readdir` on the
missing `videos` directory throws, so the `catch` block answers. A 404 comes only from a directory that
exists and has no `video*` file. `VideoRoute.NothingStoredYet` states both
cases.

## Model

| member | source | states |
|---|---|---|
| `Text.Includes` | src/app/api/upload/route.js:9 | `includes` is true exactly when the needle occurs at some position of the header (the empty needle always occurs) |
| `Text.StartsWithSplits` | src/app/api/upload/route.js:33 | `startsWith(prefix)` holds exactly when the string is `prefix` followed by the rest of it, and `prefix` followed by anything starts with `prefix` (the same test picks `video*` names at src/app/api/video/route.js:10) |
| `Text.DropFirst` | src/app/api/video/route.js:23 | `substring(1)` removes the first character and leaves the empty string empty |
| `NodePath.ExtName` | src/app/api/upload/route.js:54 | `path.extname` returns the empty string or a `.` followed by text with no further dot, and never a `/`; `ExtNameCharacterized` says when it is empty and which suffix it is |
| `NodePath.ExtNameCharacterized` | src/app/api/upload/route.js:54 | `path.extname` is non-empty exactly when the last path component has a dot after its first character and is not `..`; it is then the suffix of that component starting at a dot and holding no other dot |
| `NodePath.ExtNameAfterStem` | src/app/api/upload/route.js:54-55 | prefixing an extension with a stem that has no dot or slash gives a name whose `extname` is that extension, and the name has no slash |
| `NodePath.VideoNameKeepsExtension` | src/app/api/video/route.js:23 | the name `video<ext>` written on upload has `extname` equal to the uploaded name's extension, so playback sees the same extension |
| `NodePath.ExtNameExamples` | src/app/api/upload/route.js:54 | `clip.mp4` and `clip.webm` have extensions `.mp4` and `.webm`; `clip` and the dot file `.mp4` have none |
| `Storage.Enumerate` | src/app/api/video/route.js:9 | every finite directory has a listing naming each of its files exactly once |
| `Storage.ListingStartingWith` | src/app/api/video/route.js:9 | for any file of a directory, some valid listing returns that file first |
| `UploadRoute.Validate` | src/app/api/upload/route.js:8-49 | a request is accepted only if it is multipart, carries a file part whose reported type starts with `video/`, and has at most 50 MiB |
| `UploadRoute.BlobType` | src/app/api/upload/route.js:31-33 | the type a `File` reports is either empty, or the declaration with every ASCII capital lower-cased, same length; it holds only U+0020 to U+007E and no capital; a declaration with nothing outside that range keeps its length |
| `UploadRoute.BlobTypeIsIdempotent` | src/app/api/upload/route.js:31-33 | a reported type reports itself again: normalising is idempotent |
| `UploadRoute.CapitalisedTypeIsLowered` | src/app/api/upload/route.js:31-33 | a part declared `Video/MP4` reports `video/mp4` and passes the video check |
| `UploadRoute.WideTypeIsDropped` | src/app/api/upload/route.js:31-33 | a declaration with a character beyond U+007E reports the empty type, which fails the video check |
| `UploadRoute.ChecksInOrder` | src/app/api/upload/route.js:8-49 | each of the six verdicts holds exactly when every earlier check passed and its own check failed. The order is content type, parse/absent file, media type, size |
| `UploadRoute.DestinationName` | src/app/api/upload/route.js:54-55 | the destination is a plain file name (no `/`) starting with the stem `video` |
| `UploadRoute.Upload` | src/app/api/upload/route.js:8-65 | statuses are 200/400/500. A 400 carries the first failed check's message and a 500 comes from a thrown exception; neither changes the store. On 200 the directory exists, the destination holds the uploaded bytes, and every other file is unchanged, including a `video.<otherExt>` |
| `UploadRoute.ContentTypeCheckedFirst` | src/app/api/upload/route.js:8-16 | without `multipart/form-data` in the content type the answer is 400 "Invalid content type", whatever the form holds, and the store is unchanged |
| `UploadRoute.TypeCheckedBeforeSize` | src/app/api/upload/route.js:30-49 | a non-video file is refused with "File is not a video" even when it is also too large |
| `UploadRoute.SizeLimitIsInclusive` | src/app/api/upload/route.js:42-49 | the limit is 52428800 bytes; a video of exactly that size is accepted and a larger one gets 400 "File size exceeds 50MB" |
| `UploadRoute.UploadIsIdempotent` | src/app/api/upload/route.js:51-58 | uploading the same request twice gives the same response and store as uploading it once |
| `Http.NormalizeHeaderValue` | src/app/api/video/route.js:25-29 | the header value `new Response` keeps is no longer than the given one and neither starts nor ends with HTTP whitespace |
| `Http.NormalizeTrimsOnlyWhitespace` | src/app/api/video/route.js:25-29 | normalising keeps a contiguous part of the value and cuts off only HTTP whitespace on either side |
| `Http.NormalizedIsSafe` | src/app/api/video/route.js:25-29 | what normalising leaves of a valid header value is a byte string with no NUL, carriage return or line feed and no HTTP whitespace at either end |
| `Http.FileResponse` | src/app/api/video/route.js:25-37 | the 200 response is built exactly when the content type is a valid header value. It then carries the file's bytes and sends the normalised type, which is safe to send as it is: a byte string with no NUL, CR or LF and no whitespace at its ends (`NormalizeTrimsOnlyWhitespace` says it differs from the given type only by whitespace cut off its ends). Otherwise the constructor throws and the answer is the catch-all 500 |
| `Http.SentUnchanged` | src/app/api/video/route.js:25-37 | a file is answered with 200 and exactly the content type asked for if and only if that type is a byte string with no NUL, CR or LF and no HTTP whitespace at either end |
| `Http.VisibleAsciiIsSentAsIs` | src/app/api/video/route.js:25-29 | a content type made only of visible ASCII is sent with status 200, unchanged |
| `Http.WideCharacterIsRefused` | src/app/api/video/route.js:25-29 | `video/🎬` is not a valid header value |
| `Http.TrailingSpaceIsCut` | src/app/api/video/route.js:25-29 | `video/mp4 ` is sent as `video/mp4` |
| `VideoRoute.Find` | src/app/api/video/route.js:10 | `find` returns nothing exactly when no name has the prefix; otherwise it returns the first name in listing order that has it |
| `VideoRoute.MediaType` | src/app/api/video/route.js:23-28 | the content type always starts with `video/`, and what follows holds no `/` and no `.`; for a name with an extension, that extension is `.` followed by what follows `video/`, so the type determines it |
| `VideoRoute.Get` | src/app/api/video/route.js:6-39 | 500 exactly when the directory is missing or the first `video*` name's content type is not a valid header value, and then the catch-all error. A 404 "Video file not found" happens exactly when no stored name starts with `video`, whatever the listing order. A 200 serves the first `video*` name of the listing: its stored bytes, with content type `video/<ext without dot>` as the header normalisation leaves it |
| `VideoRoute.NothingStoredYet` | src/app/api/video/route.js:8-19 | with no directory the answer is the 500 error; with an empty directory it is 404 |
| `VideoRoute.OnlyVideoIsServed` | src/app/api/video/route.js:9-29 | when exactly one stored name starts with `video`, every listing order gives the response `new Response` builds for that file and its content type |
| `VideoRoute.ServedFileDependsOnOrder` | src/app/api/video/route.js:9-10 | with two `video*` files stored, each is the one answered under some listing order |
| `VideoRoute.MediaTypeExamples` | src/app/api/video/route.js:23-28 | `video.mp4` is served as `video/mp4`, and `video` with no extension as `video/` |
| `VideoRoute.UnsendableExtensionFails` | src/app/api/video/route.js:23-37 | a stored `video.🎬` is found but answered with the catch-all 500, because its content type is not a byte string |
| `RoundTrip.LastAccepted` | src/app/api/upload/route.js:51-58 | the file it reports belongs to one of the requests that passed validation |
| `RoundTrip.LastAcceptedIsLast` | src/app/api/upload/route.js:51-58 | nothing is reported exactly when no request passed validation; otherwise the file is that of a request that passed and after which none did |
| `RoundTrip.SameExtensionKeepsOneVideo` | src/app/api/upload/route.js:51-58 | starting without a `video*` file, uploads that all share one extension leave exactly one `video*` file, holding the last accepted upload; until one is accepted nothing changes |
| `RoundTrip.SameExtensionRoundTrip` | src/app/api/video/route.js:10-29 | under the same assumptions, every listing order makes `GET` answer with the last accepted upload's bytes as `video/<ext>`, as `new Response` sends that type |
| `RoundTrip.StaleExtensionSurvives` | src/app/api/upload/route.js:54-58 | after two accepted uploads with different extensions, some listing order makes `GET` answer with the first, stale upload |
| `RoundTrip.MediaTypeOfDestination` | src/app/api/upload/route.js:54-55 | the file stored as `video<ext>` is served with the same content type as the uploaded name would give: renaming keeps the type |
| `RoundTrip.OnlyVideoServedEverywhere` | src/app/api/video/route.js:9-29 | a store whose only `video*` file is a given one serves that file's bytes and content type under every listing order |
| `RoundTrip.DeclaredTypeReachesValidation` | src/app/api/upload/route.js:31-33 | the runtime's `File` type rule applied before the video check: a part declared `Video/MP4` is accepted with type `video/mp4`, and one declared with a character beyond U+007E is refused as not a video |
| `RoundTrip.MultipartVideoAccepted` | src/app/api/upload/route.js:8-49 | a multipart request carrying a video part within the limit is accepted |
| `RoundTrip.StaleVideoExample` | src/app/api/upload/route.js:54-58 | concretely: `clip.mp4` then `clip.webm` on a fresh server stores both `video.mp4` and `video.webm`, and the listing `video.mp4, video.webm` serves the `.mp4` bytes as `video/mp4` |
| `SingleSlot.WithoutVideos` | src/app/api/upload/route.js:51-58 | removing the stem-named files leaves no `video*` name and keeps every other file |
| `SingleSlot.UploadReplacing` | src/app/api/upload/route.js:51-58 | the corrected upload answers exactly like the handler. On success the directory holds exactly the old non-`video*` files, unchanged, plus the new file, which is the only `video*` file |
| `SingleSlot.ReplacedVideoIsServed` | src/app/api/video/route.js:10-29 | after a successful corrected upload, every listing order answers with that upload as `video/<its ext>`, whatever was stored before |
| `SingleSlot.ReplacingRoundTrip` | src/app/api/video/route.js:10-29 | with the corrected upload, any sequence of uploads with any extensions round-trips to the last accepted one, for every listing order |

## Left out

- The client page (`src/app/page.js`) is left out: tabs, drag-and-drop handlers, the player and the `fetch` call are UI and network plumbing. The highlights text is held as a raw string and never parsed.
- Real file system and HTTP: `fs.mkdir`, `readdir`, `readFile`, `writeFile`, `process.cwd()` and JSON serialisation. The abstract store and the response record stand in for them. Of `Response` construction, only the content-type check that can fail is modelled; the fixed `application/json` header always passes it.
- `UploadRoute.BlobType` takes the part's declared type as a string. The type the runtime's form parser assigns to a part sent without a `Content-Type` header is not modelled; the handler only ever sees the reported `type`.
- The text of a 500 response (`error.message`) is not modelled. A thrown exception becomes the body `ThrownError`. I/O failures in `mkdir`, `writeFile`, `readdir` (other than a missing directory) and `readFile` are not modelled either. Only the thrown cases that the request itself decides are modelled: a form that does not parse, and a non-empty text `file` field.
- `Get`: the directory is modelled as regular files only. A subdirectory whose name starts with `video` would make `readFile` fail with 500 in the code; the model has no such entry.
- Concurrency: simultaneous uploads, readers seeing a partly written file, and non-atomic writes. Each request is one atomic step here.
- `path.extname` is Node's POSIX variant; the Windows variant (backslash separators, drive letters) is not modelled.
- `Storage.Dir` models a case-sensitive file system such as Linux's: names that a file system would merge by case (the default on macOS and Windows) or by Unicode normalisation are separate entries here. On such a system uploading `clip.MP4` and then `clip.mp4` rewrites one file, so `RoundTrip.StaleExtensionSurvives` and the Findings row apply only to extensions that differ after that merging.
- Strings are sequences of characters. JavaScript's UTF-16 code units and any file-system limits on names (length, NUL) are not modelled.
- Range requests, caching and the cache-busting query parameter: the code ignores them on the server.

## Findings

| source | as written | input that shows it | evidently intended | confidence | as-written member | corrected member |
|---|---|---|---|---|---|---|
| src/app/api/upload/route.js:54-58 | the upload writes `video<ext>` and never removes a stored `video.<otherExt>`; playback then serves whichever `video*` name `readdir` lists first | upload `clip.mp4` (bytes `[1]`) and then `clip.webm` (bytes `[2]`) to a fresh server. Both `video.mp4` and `video.webm` remain, and the listing `video.mp4, video.webm` serves `[1]` as `video/mp4` (`RoundTrip.StaleVideoExample`) | one stored video that each upload replaces: the handlers share one fixed `video` stem, and playback takes a single `video*` file, so playback should serve the latest upload under every listing order | not executed; high on a case-sensitive file system, since nothing else ever removes or chooses between `video*` files | `RoundTrip.StaleExtensionSurvives` | `SingleSlot.ReplacingRoundTrip` |

`UploadRoute.Upload` stays the model of the handler as written. The
round-trip statements about it (`RoundTrip`) therefore need their
same-extension hypothesis. `SingleSlot.UploadReplacing` is the corrected
handler, and with it the round trip holds without that hypothesis.

=== FILE: common.dfy ===
/** Small shared vocabulary: optional values and bytes. */
module Common {

  /** A value that may be absent: a header the client did not send, a
      form entry that is not there, a directory not yet created. */
  datatype Option<+T> = None | Some(value: T)

  /** An octet of a file's contents. */
  newtype byte = x: int | 0 <= x < 256

  /** The contents of a file. */
  type Bytes = seq<byte>
}

=== FILE: http.dfy ===
/** The responses the two route handlers construct. JSON bodies are kept
    as the single field they carry; their serialisation is not modelled. */
module Http {
  import opened Common

  /** A response body. */
  datatype Body =
    | Message(message: string)   // `{"message": ...}`
    | Error(error: string)       // `{"error": ...}` with a fixed text
    | ThrownError                // `{"error": error.message}` from a caught exception
    | Raw(bytes: Bytes)          // the file contents themselves

  datatype Response = Response(status: int, contentType: string, body: Body)

  const JsonType := "application/json"

  /** A JSON error response with a fixed message. */
  function JsonError(status: int, error: string): Response {
    Response(status, JsonType, Error(error))
  }

  /** What both handlers' `catch` blocks return. */
  function InternalError(): Response {
    Response(500, JsonType, ThrownError)
  }

  /** HTTP whitespace in the Fetch standard's sense: tab, line feed,
      carriage return and space. */
  predicate IsHttpWhitespace(c: char) {
    c == '\t' || c == '\n' || c == '\r' || c == ' '
  }

  /** `s` without its leading HTTP whitespace. */
  function TrimLeading(s: string): (r: string)
    ensures |r| <= |s| && r == s[|s| - |r|..]
    ensures r == [] || !IsHttpWhitespace(r[0])
    ensures forall i :: 0 <= i < |s| - |r| ==> IsHttpWhitespace(s[i])
  {
    if |s| > 0 && IsHttpWhitespace(s[0]) then TrimLeading(s[1..]) else s
  }

  /** `s` without its trailing HTTP whitespace. */
  function TrimTrailing(s: string): (r: string)
    ensures |r| <= |s| && r == s[..|r|]
    ensures r == [] || !IsHttpWhitespace(r[|r| - 1])
    ensures forall i :: |r| <= i < |s| ==> IsHttpWhitespace(s[i])
  {
    if |s| > 0 && IsHttpWhitespace(s[|s| - 1]) then TrimTrailing(s[..|s| - 1]) else s
  }

  /** `r` is `v[i..]` cut before its end, and everything cut off on
      either side is HTTP whitespace. */
  ghost predicate TrimsTo(v: string, r: string, i: int) {
    && 0 <= i <= |v| - |r|
    && r == v[i..i + |r|]
    && (forall j :: 0 <= j < i ==> IsHttpWhitespace(v[j]))
    && (forall j :: i + |r| <= j < |v| ==> IsHttpWhitespace(v[j]))
  }

  /** The Fetch standard's "normalize" step for a header value: the value
      with the HTTP whitespace at both of its ends removed. */
  function NormalizeHeaderValue(v: string): (r: string)
    ensures |r| <= |v|
    ensures r == [] || (!IsHttpWhitespace(r[0]) && !IsHttpWhitespace(r[|r| - 1]))
  {
    var t := TrimLeading(v);
    var r := TrimTrailing(t);
    assert r == [] || !IsHttpWhitespace(r[0]) by {
      if r != [] { assert r[0] == t[0]; }
    }
    r
  }

  /** What normalising keeps: a contiguous part of the value, everything
      cut off on either side being whitespace. */
  lemma {:induction false} NormalizeTrimsOnlyWhitespace(v: string)
    ensures exists i :: TrimsTo(v, NormalizeHeaderValue(v), i)
  {
    var t := TrimLeading(v);
    var r := TrimTrailing(t);
    assert r == NormalizeHeaderValue(v);
    var i := |v| - |t|;
    assert t == v[i..];
    assert forall j :: 0 <= j < i ==> IsHttpWhitespace(v[j]);
    assert r == v[i..i + |r|] by {
      assert r == t[..|r|];
    }
    forall j | i + |r| <= j < |v| ensures IsHttpWhitespace(v[j]) {
      assert v[j] == t[j - i];
    }
    assert TrimsTo(v, r, i);
  }

  /** Every character of `s` fits in one byte, as the WebIDL `ByteString`
      conversion of a header value demands. */
  predicate IsByteString(s: string) {
    forall i :: 0 <= i < |s| ==> s[i] as int <= 0xFF
  }

  /** A header value the `Headers` of a `Response` accepts: a byte string
      that, once normalised, holds no NUL, carriage return or line feed. */
  predicate ValidHeaderValue(v: string) {
    var n := NormalizeHeaderValue(v);
    IsByteString(v) && '\0' !in n && '\r' !in n && '\n' !in n
  }

  /** A value `Headers` takes without complaint and without change: a byte
      string free of NUL, carriage return and line feed, with no HTTP
      whitespace at either end. */
  predicate IsSafeHeaderValue(v: string) {
    && IsByteString(v) && '\0' !in v && '\r' !in v && '\n' !in v
    && (v == [] || (!IsHttpWhitespace(v[0]) && !IsHttpWhitespace(v[|v| - 1])))
  }

  /** A value with no whitespace at either end is already normal. */
  lemma UntrimmedIsNormal(v: string)
    requires v == [] || (!IsHttpWhitespace(v[0]) && !IsHttpWhitespace(v[|v| - 1]))
    ensures NormalizeHeaderValue(v) == v
  {
    if |v| > 0 {
      assert !IsHttpWhitespace(v[0]);
      assert TrimLeading(v) == v;
      assert !IsHttpWhitespace(v[|v| - 1]);
      assert TrimTrailing(v) == v;
    }
  }

  /** Normalising a valid value leaves a safe one. */
  lemma NormalizedIsSafe(v: string)
    requires ValidHeaderValue(v)
    ensures IsSafeHeaderValue(NormalizeHeaderValue(v))
  {
    var n := NormalizeHeaderValue(v);
    NormalizeTrimsOnlyWhitespace(v);
    var i :| TrimsTo(v, n, i);
    forall k | 0 <= k < |n| ensures n[k] as int <= 0xFF {
      assert n[k] == v[i + k];
    }
  }

  /** `new Response(bytes, {status: 200, headers: {'Content-Type': t}})`
      inside a handler's `try`: an invalid header value makes the
      constructor throw, which ends in the `catch` block's 500; a valid one
      is sent normalised. */
  function FileResponse(mediaType: string, bytes: Bytes): (r: Response)
    ensures r.status == 200 <==> ValidHeaderValue(mediaType)
    ensures r.status != 200 ==> r == InternalError()
    ensures r.status == 200 ==> r.body == Raw(bytes) && r.contentType == NormalizeHeaderValue(mediaType)
    // What is sent is safe to send as it is; `NormalizeTrimsOnlyWhitespace`
    // says it is the given type with at most whitespace cut off its ends.
    ensures r.status == 200 ==> IsSafeHeaderValue(r.contentType)
  {
    if ValidHeaderValue(mediaType) then
      NormalizedIsSafe(mediaType);
      Response(200, NormalizeHeaderValue(mediaType), Raw(bytes))
    else InternalError()
  }

  /** A file is sent with exactly the content type asked for if and only
      if that type is safe; a type that needs trimming is changed, and one
      that is not a valid header value turns into a 500. */
  lemma {:induction false} SentUnchanged(t: string, bytes: Bytes)
    ensures FileResponse(t, bytes) == Response(200, t, Raw(bytes)) <==> IsSafeHeaderValue(t)
  {
    if IsSafeHeaderValue(t) {
      UntrimmedIsNormal(t);
      assert ValidHeaderValue(t);
    }
  }

  /** Every character of `v` is visible ASCII (`!` to `~`). */
  predicate IsVisibleAscii(v: string) {
    forall i :: 0 <= i < |v| ==> '!' <= v[i] <= '~'
  }

  /** Normalising a visible-ASCII value leaves it as it is. */
  lemma VisibleAsciiIsNormal(v: string)
    requires IsVisibleAscii(v)
    ensures NormalizeHeaderValue(v) == v
  {
    if |v| > 0 {
      assert '!' <= v[0] <= '~' && '!' <= v[|v| - 1] <= '~';
    }
    UntrimmedIsNormal(v);
  }

  /** A visible-ASCII value is a valid header value. */
  lemma VisibleAsciiIsValid(v: string)
    requires IsVisibleAscii(v)
    ensures ValidHeaderValue(v)
  {
    VisibleAsciiIsNormal(v);
    forall i | 0 <= i < |v| ensures v[i] as int <= 0xFF && v[i] != '\0' && v[i] != '\r' && v[i] != '\n' {
      assert '!' <= v[i] <= '~';
    }
  }

  /** A value made of visible ASCII characters only is sent exactly as
      given. */
  lemma VisibleAsciiIsSentAsIs(mediaType: string, bytes: Bytes)
    requires IsVisibleAscii(mediaType)
    ensures FileResponse(mediaType, bytes) == Response(200, mediaType, Raw(bytes))
  {
    VisibleAsciiIsValid(mediaType);
    VisibleAsciiIsNormal(mediaType);
  }

  /** A content type holding a character beyond one byte, such as a film
      clapper emoji, is refused. */
  lemma WideCharacterIsRefused()
    ensures !ValidHeaderValue("video/\U{1F3AC}")
  {
    var v := "video/\U{1F3AC}";
    assert v[6] as int > 0xFF;
    assert !IsByteString(v);
  }

  /** A trailing space is cut off a content type. */
  lemma TrailingSpaceIsCut()
    ensures NormalizeHeaderValue("video/mp4 ") == "video/mp4"
  {
    var v := "video/mp4 ";
    var w := "video/mp4";
    assert !IsHttpWhitespace(v[0]);
    assert TrimLeading(v) == v;
    assert v[..|v| - 1] == w;
    assert IsHttpWhitespace(v[|v| - 1]);
    assert TrimTrailing(v) == TrimTrailing(w);
    assert !IsHttpWhitespace(w[|w| - 1]);
    assert TrimTrailing(w) == w;
  }
}

=== FILE: node_path.dfy ===
/** Node's POSIX `path.extname`, which both route handlers call. The
    library is not part of this model; what follows is what Node's POSIX
    implementation computes, restated with `LastIndexOf` rather than its
    backward scan: trailing separators are ignored, only the last path
    component is looked at, and the extension runs from that component's
    last `.` to its end, except that a component whose last dot is its
    first character (".bashrc") or that is exactly ".." has no
    extension. */
module NodePath {
  import opened Text

  /** `s` ends with `suffix`. */
  predicate EndsWith(s: string, suffix: string) {
    |suffix| <= |s| && s[|s| - |suffix|..] == suffix
  }

  /** The path without its trailing `/` characters. */
  function TrimTrailingSlashes(p: string): (r: string)
    ensures |r| <= |p| && r == p[..|r|]
    ensures r == [] || r[|r| - 1] != '/'
    ensures forall i :: |r| <= i < |p| ==> p[i] == '/'
  {
    if |p| > 0 && p[|p| - 1] == '/' then TrimTrailingSlashes(p[..|p| - 1]) else p
  }

  /** The last component of a path: the text after the last `/` once
      trailing separators are dropped. */
  function LastComponent(p: string): (r: string)
    ensures '/' !in r
  {
    var t := TrimTrailingSlashes(p);
    t[LastIndexOf(t, '/') + 1..]
  }

  /** `path.extname(p)`. */
  function ExtName(p: string): (e: string)
    ensures '/' !in e
    ensures e == [] || (e[0] == '.' && '.' !in e[1..])
  {
    var b := LastComponent(p);
    var d := LastIndexOf(b, '.');
    if d <= 0 || b == ".." then "" else
      assert b[d..][1..] == b[d + 1..];
      b[d..]
  }

  /** What `ExtName` returns, without reference to how: the extension is
      non-empty exactly when the last component has a dot after its first
      character and is not "..", and then it is the suffix of that
      component starting at a dot and holding no other dot. */
  lemma ExtNameCharacterized(p: string)
    ensures var b := LastComponent(p); var e := ExtName(p);
      e != [] <==> b != ".." && exists k :: 0 < k < |b| && b[k] == '.'
    ensures var b := LastComponent(p); var e := ExtName(p);
      e != [] ==> e[0] == '.' && '.' !in e[1..] && EndsWith(b, e) && |e| < |b|
  {
    var b := LastComponent(p);
    var d := LastIndexOf(b, '.');
    if 0 < d && b != ".." {
      assert b[d..][1..] == b[d + 1..];
    }
  }

  /** A name built from a stem without dots or separators and an extension
      produced by `ExtName` gives that extension back: this is why the
      name the upload handler writes is served with the uploaded file's
      extension. */
  lemma {:induction false} ExtNameAfterStem(stem: string, p: string)
    requires stem != [] && '.' !in stem && '/' !in stem
    ensures ExtName(stem + ExtName(p)) == ExtName(p)
    ensures '/' !in stem + ExtName(p)
  {
    var e := ExtName(p);
    var name := stem + e;
    assert '/' !in name by {
      forall i | 0 <= i < |name| ensures name[i] != '/' {
        if i < |stem| { assert name[i] == stem[i]; } else { assert name[i] == e[i - |stem|]; }
      }
    }
    assert TrimTrailingSlashes(name) == name;
    assert LastIndexOf(name, '/') == -1;
    assert LastComponent(name) == name;
    if e == [] {
      assert name == stem;
    } else {
      assert name[|stem|] == '.';
      assert forall j :: |stem| < j < |name| ==> name[j] != '.' by {
        forall j | |stem| < j < |name| ensures name[j] != '.' {
          assert name[j] == e[1..][j - |stem| - 1];
        }
      }
      assert LastIndexOf(name, '.') == |stem|;
      assert name != "..";
      assert name[|stem|..] == e;
    }
  }

  /** The upload handler's destination name keeps the upload's extension. */
  lemma VideoNameKeepsExtension(p: string)
    ensures ExtName("video" + ExtName(p)) == ExtName(p)
    ensures '/' !in "video" + ExtName(p)
  {
    ExtNameAfterStem("video", p);
  }

  /** Reference values of Node's `path.extname`: ordinary extensions,
      a file without one, and a dot file. */
  lemma ExtNameExamples()
    ensures ExtName("clip.mp4") == ".mp4"
    ensures ExtName("clip.webm") == ".webm"
    ensures ExtName("clip") == ""
    ensures ExtName(".mp4") == ""
  {
    assert TrimTrailingSlashes("clip.mp4") == "clip.mp4";
    assert LastIndexOf("clip.mp4", '/') == -1;
    assert "clip.mp4"[4] == '.';
    assert LastIndexOf("clip.mp4", '.') == 4;
    assert TrimTrailingSlashes("clip.webm") == "clip.webm";
    assert LastIndexOf("clip.webm", '/') == -1;
    assert "clip.webm"[4] == '.';
    assert LastIndexOf("clip.webm", '.') == 4;
    assert TrimTrailingSlashes("clip") == "clip";
    assert LastIndexOf("clip", '/') == -1;
    assert LastIndexOf("clip", '.') == -1;
    assert TrimTrailingSlashes(".mp4") == ".mp4";
    assert LastIndexOf(".mp4", '/') == -1;
    assert ".mp4"[0] == '.';
    assert LastIndexOf(".mp4", '.') == 0;
  }
}

=== FILE: round_trip.dfy ===
/** Uploads followed by playback: what `GET /api/video` serves after a
    sequence of `POST /api/upload` requests. */
module RoundTrip {
  import opened Common
  import opened Text
  import opened NodePath
  import opened Storage
  import opened Http
  import opened UploadRoute
  import opened VideoRoute

  /** The store after the requests, handled in order. */
  function UploadAll(store: Store, reqs: seq<Request>): Store
    decreases |reqs|
  {
    if |reqs| == 0 then store
    else Upload(UploadAll(store, reqs[..|reqs| - 1]), reqs[|reqs| - 1]).store
  }

  /** Two requests in a row. */
  lemma UploadTwo(store: Store, first: Request, second: Request)
    ensures UploadAll(store, [first, second]) == Upload(Upload(store, first).store, second).store
  {
    var one := [first];
    assert one[..0] == [];
    assert UploadAll(store, one) == Upload(store, first).store;
    var two := [first, second];
    assert two[..1] == one;
  }

  /** `reqs[i]` passed validation and no later request did. */
  ghost predicate LastAcceptedAt(reqs: seq<Request>, i: int) {
    && 0 <= i < |reqs|
    && Validate(reqs[i]).Accepted?
    && (forall j :: i < j < |reqs| ==> !Validate(reqs[j]).Accepted?)
  }

  /** The file of the last request that passed validation, if any. */
  function LastAccepted(reqs: seq<Request>): (f: Option<FilePart>)
    ensures f.Some? ==> exists i :: 0 <= i < |reqs| && Validate(reqs[i]) == Accepted(f.value)
    decreases |reqs|
  {
    if |reqs| == 0 then None
    else if Validate(reqs[|reqs| - 1]).Accepted? then Some(Validate(reqs[|reqs| - 1]).file)
    else LastAccepted(reqs[..|reqs| - 1])
  }

  /** A last request that fails validation changes nothing. */
  lemma SkipRejectedLast(reqs: seq<Request>)
    requires |reqs| > 0 && !Validate(reqs[|reqs| - 1]).Accepted?
    ensures LastAccepted(reqs) == LastAccepted(reqs[..|reqs| - 1])
  {
  }

  /** If no request of the prefix passed and neither did the last one,
      none passed. */
  lemma NoneAcceptedExtends(init: seq<Request>, reqs: seq<Request>)
    requires |reqs| > 0 && init == reqs[..|reqs| - 1] && !Validate(reqs[|reqs| - 1]).Accepted?
    requires forall i :: 0 <= i < |init| ==> !Validate(init[i]).Accepted?
    ensures forall i :: 0 <= i < |reqs| ==> !Validate(reqs[i]).Accepted?
  {
    forall i | 0 <= i < |reqs| ensures !Validate(reqs[i]).Accepted? {
      if i < |init| { assert reqs[i] == init[i]; } else { assert i == |init|; }
    }
  }

  /** The last accepted request of the prefix stays the last one when the
      request appended fails validation. */
  lemma LastAcceptedAtExtends(reqs: seq<Request>, i: int)
    requires |reqs| > 0 && !Validate(reqs[|reqs| - 1]).Accepted?
    requires LastAcceptedAt(reqs[..|reqs| - 1], i)
    ensures LastAcceptedAt(reqs, i) && reqs[i] == reqs[..|reqs| - 1][i]
  {
    var n := |reqs| - 1;
    forall j | i < j < |reqs| ensures !Validate(reqs[j]).Accepted? {
      if j < n { assert reqs[j] == reqs[..n][j]; } else { assert j == n; }
    }
  }

  /** `LastAccepted` reports nothing exactly when no request passed
      validation, and otherwise the file of the last request that did. */
  lemma {:induction false} LastAcceptedIsLast(reqs: seq<Request>)
    ensures LastAccepted(reqs).None? <==> forall i :: 0 <= i < |reqs| ==> !Validate(reqs[i]).Accepted?
    ensures LastAccepted(reqs).Some? ==>
      exists i :: LastAcceptedAt(reqs, i) && Validate(reqs[i]) == Accepted(LastAccepted(reqs).value)
    decreases |reqs|
  {
    if |reqs| == 0 { return; }
    var n := |reqs| - 1;
    if Validate(reqs[n]).Accepted? {
      assert LastAcceptedAt(reqs, n);
      return;
    }
    var init := reqs[..n];
    LastAcceptedIsLast(init);
    SkipRejectedLast(reqs);
    if LastAccepted(init).Some? {
      var i :| LastAcceptedAt(init, i) && Validate(init[i]) == Accepted(LastAccepted(init).value);
      LastAcceptedAtExtends(reqs, i);
    } else {
      NoneAcceptedExtends(init, reqs);
    }
  }

  /** A stored video is served with the content type its upload's name
      would have been served with: renaming the file to the fixed stem
      keeps its type. */
  lemma MediaTypeOfDestination(name: string)
    ensures MediaType(DestinationName(name)) == MediaType(name)
  {
    VideoNameKeepsExtension(name);
  }

  /** No stored name starts with the stem (in particular, no directory). */
  ghost predicate NoVideo(store: Store) {
    !HasVideo(Contents(store))
  }

  /** Every accepted request's file has extension `ext`. */
  ghost predicate AcceptedWithExtension(reqs: seq<Request>, ext: string) {
    forall i :: 0 <= i < |reqs| && Validate(reqs[i]).Accepted? ==> ExtName(Validate(reqs[i]).file.name) == ext
  }

  /** The directory exists, holds `contents` under `name`, and no other
      name in it starts with the stem. */
  ghost predicate OnlyVideo(store: Store, name: string, contents: Bytes) {
    && store.Some?
    && name in store.value
    && store.value[name] == contents
    && (forall k :: k in store.value && StartsWith(k, VideoStem) ==> k == name)
  }

  /** A store holding one video serves it under every listing order. */
  lemma OnlyVideoServedEverywhere(store: Store, name: string, contents: Bytes)
    requires OnlyVideo(store, name, contents) && StartsWith(name, VideoStem)
    ensures forall listing :: IsListing(listing, Contents(store)) ==>
      Get(store, listing) == FileResponse(MediaType(name), contents)
  {
    forall listing | IsListing(listing, Contents(store))
      ensures Get(store, listing) == FileResponse(MediaType(name), contents)
    {
      OnlyVideoIsServed(store.value, name, listing);
    }
  }

  /** Uploads that all share one extension keep exactly one stem-named
      file, holding the last accepted upload; until one is accepted the
      store is untouched. */
  lemma {:induction false} SameExtensionKeepsOneVideo(store: Store, reqs: seq<Request>, ext: string)
    requires NoVideo(store)
    requires AcceptedWithExtension(reqs, ext)
    ensures LastAccepted(reqs).None? ==> UploadAll(store, reqs) == store
    ensures LastAccepted(reqs).Some? ==>
      OnlyVideo(UploadAll(store, reqs), VideoStem + ext, LastAccepted(reqs).value.bytes)
    decreases |reqs|
  {
    if |reqs| > 0 {
      var init := reqs[..|reqs| - 1];
      var last := reqs[|reqs| - 1];
      assert AcceptedWithExtension(init, ext) by {
        forall i | 0 <= i < |init| && Validate(init[i]).Accepted?
          ensures ExtName(Validate(init[i]).file.name) == ext
        {
          assert init[i] == reqs[i];
        }
      }
      SameExtensionKeepsOneVideo(store, init, ext);
      var before := UploadAll(store, init);
      if Validate(last).Accepted? {
        var f := Validate(last).file;
        assert ExtName(f.name) == ext by { assert reqs[|reqs| - 1] == last; }
        assert DestinationName(f.name) == VideoStem + ext;
      }
    }
  }

  /** If every accepted upload used the same extension, then whatever the
      listing order, playback serves the last accepted upload's bytes as
      `video/<ext>`. */
  lemma SameExtensionRoundTrip(store: Store, reqs: seq<Request>, ext: string)
    requires NoVideo(store)
    requires AcceptedWithExtension(reqs, ext)
    ensures LastAccepted(reqs).Some? ==> UploadAll(store, reqs).Some?
    ensures LastAccepted(reqs).Some? ==>
      forall listing :: IsListing(listing, Contents(UploadAll(store, reqs))) ==>
        Get(UploadAll(store, reqs), listing) ==
          FileResponse(VideoMediaPrefix + DropFirst(ext), LastAccepted(reqs).value.bytes)
  {
    SameExtensionKeepsOneVideo(store, reqs, ext);
    if LastAccepted(reqs).None? { return; }
    var s := UploadAll(store, reqs);
    assert StartsWith(VideoStem + ext, VideoStem) by {
      assert (VideoStem + ext)[..|VideoStem|] == VideoStem;
    }
    var f := LastAccepted(reqs).value;
    assert ExtName(f.name) == ext;
    VideoNameKeepsExtension(f.name);
    forall listing | IsListing(listing, Contents(s))
      ensures Get(s, listing) == FileResponse(VideoMediaPrefix + DropFirst(ext), f.bytes)
    {
      OnlyVideoIsServed(s.value, VideoStem + ext, listing);
    }
  }

  /** An upload whose extension differs from an earlier one leaves the
      earlier file in place, and some listing order serves that stale
      file instead of the new one. Names are compared exactly, as on a
      case-sensitive file system. */
  lemma StaleExtensionSurvives(store: Store, first: Request, second: Request)
    requires Validate(first).Accepted? && Validate(second).Accepted?
    requires ExtName(Validate(first).file.name) != ExtName(Validate(second).file.name)
    ensures var s := UploadAll(store, [first, second]);
      exists l :: IsListing(l, Contents(s)) &&
        Get(s, l) == FileResponse(MediaType(DestinationName(Validate(first).file.name)), Validate(first).file.bytes)
  {
    var f1 := Validate(first).file;
    var f2 := Validate(second).file;
    var n1 := DestinationName(f1.name);
    var n2 := DestinationName(f2.name);
    VideoNameKeepsExtension(f1.name);
    VideoNameKeepsExtension(f2.name);
    assert ExtName(n1) != ExtName(n2);
    UploadTwo(store, first, second);
    var s := UploadAll(store, [first, second]);
    assert n1 in s.value && s.value[n1] == f1.bytes;
    ServedFileDependsOnOrder(s.value, n1, n2);
  }

  /** A well-formed upload of the file part `f`. */
  function MultipartUpload(f: FilePart): Request {
    Request(Some(MultipartType), Parsed(Some(FileField(f))))
  }

  /** A well-formed upload of a video within the limit is accepted. */
  lemma MultipartVideoAccepted(f: FilePart)
    requires StartsWith(f.mediaType, VideoTypePrefix) && |f.bytes| <= MaxFileSize
    ensures Validate(MultipartUpload(f)) == Accepted(f)
  {
    assert StartsWith(MultipartType, MultipartType);
  }

  /** The runtime's `File` type rule ahead of validation: a part declared
      `Video/MP4` reaches the video check as `video/mp4` and is accepted,
      while one whose declaration holds a character beyond U+007E reaches
      it with an empty type and is refused as not a video. */
  lemma DeclaredTypeReachesValidation(name: string, bytes: Bytes)
    requires |bytes| <= MaxFileSize
    ensures Validate(MultipartUpload(FilePart(name, BlobType("Video/MP4"), bytes)))
      == Accepted(FilePart(name, "video/mp4", bytes))
    ensures Validate(MultipartUpload(FilePart(name, BlobType("video/mp4\U{E9}"), bytes)))
      == Rejected(NotAVideo)
  {
    CapitalisedTypeIsLowered();
    MultipartVideoAccepted(FilePart(name, BlobType("Video/MP4"), bytes));
    WideTypeIsDropped();
  }

  lemma ClipDestinations()
    ensures DestinationName("clip.mp4") == "video.mp4"
    ensures DestinationName("clip.webm") == "video.webm"
  {
    assert VideoStem + ".mp4" == "video.mp4";
    assert VideoStem + ".webm" == "video.webm";
    ExtNameExamples();
  }

  /** Uploading `clip.mp4` to a server without a `videos` directory. */
  lemma FirstExampleUpload()
    ensures Upload(None, MultipartUpload(FilePart("clip.mp4", "video/mp4", [1]))).store
      == Some(map["video.mp4" := [1]])
  {
    var f := FilePart("clip.mp4", "video/mp4", [1]);
    assert StartsWith(f.mediaType, VideoTypePrefix);
    MultipartVideoAccepted(f);
    ClipDestinations();
  }

  /** Then uploading `clip.webm`: the `.mp4` file stays. */
  lemma SecondExampleUpload()
    ensures Upload(Some(map["video.mp4" := [1]]), MultipartUpload(FilePart("clip.webm", "video/webm", [2]))).store
      == Some(map["video.mp4" := [1], "video.webm" := [2]])
  {
    var f := FilePart("clip.webm", "video/webm", [2]);
    assert {"video.mp4"} + {"video.webm"} == {"video.mp4", "video.webm"};
    assert StartsWith(f.mediaType, VideoTypePrefix);
    MultipartVideoAccepted(f);
    ClipDestinations();
  }

  /** The stale file on concrete requests: after uploading `clip.mp4` and
      then `clip.webm` to a server without a `videos` directory, both
      files are stored, and a listing that returns `video.mp4` first serves
      the first upload's bytes as `video/mp4`. */
  lemma StaleVideoExample()
    ensures var mp4 := MultipartUpload(FilePart("clip.mp4", "video/mp4", [1]));
      var webm := MultipartUpload(FilePart("clip.webm", "video/webm", [2]));
      var s := UploadAll(None, [mp4, webm]);
      s == Some(map["video.mp4" := [1], "video.webm" := [2]]) &&
      Get(s, ["video.mp4", "video.webm"]) == Response(200, "video/mp4", Raw([1]))
  {
    var mp4 := MultipartUpload(FilePart("clip.mp4", "video/mp4", [1]));
    var webm := MultipartUpload(FilePart("clip.webm", "video/webm", [2]));
    UploadTwo(None, mp4, webm);
    FirstExampleUpload();
    SecondExampleUpload();
    ServeExample();
  }

  /** The two-file directory and a listing of it with `.mp4` first. */
  lemma ExampleListing()
    ensures IsListing(["video.mp4", "video.webm"], map["video.mp4" := [1], "video.webm" := [2]])
  {
    var l := ["video.mp4", "video.webm"];
    assert l[0] != l[1];
  }

  /** `video.mp4` is sent as `video/mp4`. */
  lemma Mp4Response()
    ensures FileResponse(MediaType("video.mp4"), [1]) == Response(200, "video/mp4", Raw([1]))
  {
    var t := "video/mp4";
    assert IsVisibleAscii(t) by {
      forall i | 0 <= i < |t| ensures '!' <= t[i] <= '~' {
      }
    }
    VisibleAsciiIsSentAsIs(t, [1]);
    MediaTypeExamples();
  }

  /** Serving the two-file directory when the listing puts `.mp4` first. */
  lemma ServeExample()
    ensures var d := map["video.mp4" := [1], "video.webm" := [2]];
      IsListing(["video.mp4", "video.webm"], d) &&
      Get(Some(d), ["video.mp4", "video.webm"]) == Response(200, "video/mp4", Raw([1]))
  {
    var d := map["video.mp4" := [1], "video.webm" := [2]];
    var l := ["video.mp4", "video.webm"];
    assert StartsWith("video.mp4", VideoStem);
    assert Find(l, VideoStem) == Some("video.mp4");
    ExampleListing();
    assert Get(Some(d), l) == FileResponse(MediaType("video.mp4"), [1]);
    Mp4Response();
  }
}

=== FILE: single_slot.dfy ===
/** The upload handler with a single stored video: a successful upload
    replaces the stored video whatever its extension, by removing every
    stem-named file before writing the new one. The handler as
    written (`UploadRoute.Upload`) does not remove them; see
    `RoundTrip.StaleExtensionSurvives` for what that lets through. */
module SingleSlot {
  import opened Common
  import opened Text
  import opened NodePath
  import opened Storage
  import opened Http
  import opened UploadRoute
  import opened VideoRoute
  import opened RoundTrip

  /** The directory without its stem-named files. */
  function WithoutVideos(d: Dir): (r: Dir)
    ensures !HasVideo(r)
    ensures forall k :: k in d && !StartsWith(k, VideoStem) ==> k in r && r[k] == d[k]
    ensures forall k :: k in r ==> k in d
  {
    map k | k in d && !StartsWith(k, VideoStem) :: d[k]
  }

  /** `POST /api/upload` with the stored video replaced rather than
      overwritten: validation and responses are those of the handler. */
  function UploadReplacing(store: Store, req: Request): (out: Handled)
    ensures out.response == Upload(store, req).response
    ensures !Validate(req).Accepted? ==> out.store == store
    // On success the new file is the only stem-named file left, and the
    // other files are kept.
    ensures Validate(req).Accepted? ==>
      OnlyVideo(out.store, DestinationName(Validate(req).file.name), Validate(req).file.bytes)
    ensures Validate(req).Accepted? ==>
      forall k :: k in Contents(store) && !StartsWith(k, VideoStem) ==>
        k in out.store.value && out.store.value[k] == Contents(store)[k]
    // and no file other than the new one appears.
    ensures Validate(req).Accepted? ==>
      out.store.value.Keys ==
        (set k | k in Contents(store) && !StartsWith(k, VideoStem)) + {DestinationName(Validate(req).file.name)}
  {
    var out := Upload(store, req);
    match Validate(req)
    case Accepted(f) =>
      var dest := DestinationName(f.name);
      Handled(out.response, Some(WithoutVideos(Contents(store))[dest := f.bytes]))
    case _ => out
  }

  /** After a successful upload, every listing order serves that upload,
      as `video/<its extension>`, whatever was stored before. */
  lemma ReplacedVideoIsServed(store: Store, req: Request)
    ensures Validate(req).Accepted? ==>
      forall listing :: IsListing(listing, Contents(UploadReplacing(store, req).store)) ==>
        Get(UploadReplacing(store, req).store, listing) ==
          FileResponse(VideoMediaPrefix + DropFirst(ExtName(Validate(req).file.name)), Validate(req).file.bytes)
  {
    if !Validate(req).Accepted? { return; }
    var f := Validate(req).file;
    var dest := DestinationName(f.name);
    var s := UploadReplacing(store, req).store;
    assert OnlyVideo(s, dest, f.bytes);
    assert MediaType(dest) == VideoMediaPrefix + DropFirst(ExtName(f.name)) by {
      VideoNameKeepsExtension(f.name);
    }
    OnlyVideoServedEverywhere(s, dest, f.bytes);
  }

  /** The store after the requests, handled in order by the replacing
      handler. */
  function UploadAllReplacing(store: Store, reqs: seq<Request>): Store
    decreases |reqs|
  {
    if |reqs| == 0 then store
    else UploadReplacing(UploadAllReplacing(store, reqs[..|reqs| - 1]), reqs[|reqs| - 1]).store
  }

  /** With replacement, uploads of any extensions round-trip: whatever the
      starting store and the listing order, playback serves the last
      accepted upload. */
  lemma {:induction false} ReplacingRoundTrip(store: Store, reqs: seq<Request>)
    ensures LastAccepted(reqs).Some? ==> UploadAllReplacing(store, reqs).Some?
    ensures LastAccepted(reqs).Some? ==>
      forall listing :: IsListing(listing, Contents(UploadAllReplacing(store, reqs))) ==>
        Get(UploadAllReplacing(store, reqs), listing) ==
          FileResponse(VideoMediaPrefix + DropFirst(ExtName(LastAccepted(reqs).value.name)),
                       LastAccepted(reqs).value.bytes)
    decreases |reqs|
  {
    if LastAccepted(reqs).None? { return; }
    var init := reqs[..|reqs| - 1];
    var last := reqs[|reqs| - 1];
    var before := UploadAllReplacing(store, init);
    if Validate(last).Accepted? {
      ReplacedVideoIsServed(before, last);
    } else {
      ReplacingRoundTrip(store, init);
    }
  }
}

=== FILE: storage.dfy ===
/** The server's `videos` directory, seen as a single flat directory of
    named files, and the listings `fs.readdir` may return for it. */
module Storage {
  import opened Common

  /** File name to file contents. */
  type Dir = map<string, Bytes>

  /** The directory, or `None` while it has not been created. */
  type Store = Option<Dir>

  /** The fixed stem of the stored video's name: the upload handler writes
      `video<ext>` and the playback handler looks for names starting so. */
  const VideoStem := "video"

  /** The files of a store; a missing directory holds none. */
  function Contents(s: Store): Dir {
    match s
    case Some(d) => d
    case None => map[]
  }

  /** `after` is `before` with the single file `name` written as
      `contents`: created if it was absent, replaced if it was present, and
      every other file left exactly as it was. */
  ghost predicate WritesOnly(before: Dir, after: Dir, name: string, contents: Bytes) {
    && after.Keys == before.Keys + {name}
    && after[name] == contents
    && (forall k :: k in before && k != name ==> after[k] == before[k])
  }

  /** `l` is one order in which `readdir` may enumerate `d`: every file of
      `d` exactly once and nothing else. The order itself is unspecified. */
  ghost predicate IsListing(l: seq<string>, d: Dir) {
    && (forall i, j :: 0 <= i < j < |l| ==> l[i] != l[j])
    && (forall i :: 0 <= i < |l| ==> l[i] in d)
    && (forall k :: k in d ==> k in l)
  }

  /** Some enumeration of a finite set of names, each exactly once. */
  ghost function Enumerate(names: set<string>): (l: seq<string>)
    ensures forall i, j :: 0 <= i < j < |l| ==> l[i] != l[j]
    ensures forall k :: k in l <==> k in names
    decreases names
  {
    if names == {} then []
    else
      var k :| k in names;
      [k] + Enumerate(names - {k})
  }

  /** Every directory has a listing, and one may start with any file of it. */
  lemma ListingStartingWith(d: Dir, first: string) returns (l: seq<string>)
    requires first in d
    ensures IsListing(l, d) && |l| > 0 && l[0] == first
  {
    var rest := Enumerate(d.Keys - {first});
    l := [first] + rest;
    forall i | 0 <= i < |l| ensures l[i] in d {
      if i > 0 { assert l[i] == rest[i - 1]; assert l[i] in rest; }
    }
  }
}

=== FILE: text.dfy ===
/** The JavaScript string operations the route handlers call,
    `String.prototype.includes`, `startsWith` and `substring(1)`, and a
    `lastIndexOf` search that this model's `path.extname` is written with
    (Node's own implementation scans the component backwards instead), on
    strings modelled as sequences of characters. */
module Text {

  /** `sub` occurs in `s` starting at index `k`. */
  ghost predicate OccursAt(s: string, sub: string, k: int) {
    0 <= k && k + |sub| <= |s| && s[k..k + |sub|] == sub
  }

  /** `s.startsWith(prefix)`. */
  predicate StartsWith(s: string, prefix: string) {
    |prefix| <= |s| && s[..|prefix|] == prefix
  }

  /** A string starts with `prefix` exactly when it is `prefix` followed
      by the rest of it, and `prefix` followed by anything starts with
      `prefix`. */
  lemma StartsWithSplits(s: string, prefix: string, rest: string)
    ensures StartsWith(s, prefix) <==> |prefix| <= |s| && s == prefix + s[|prefix|..]
    ensures StartsWith(prefix + rest, prefix)
  {
    assert (prefix + rest)[..|prefix|] == prefix;
    if |prefix| <= |s| && s == prefix + s[|prefix|..] {
      assert s[..|prefix|] == prefix;
    }
  }

  /** `s.includes(sub)`: is there a position where `sub` occurs? The empty
      string occurs everywhere. */
  function Includes(s: string, sub: string): (b: bool)
    ensures b <==> exists k :: OccursAt(s, sub, k)
    decreases |s|
  {
    if |sub| > |s| then
      assert forall k :: !OccursAt(s, sub, k);
      false
    else if StartsWith(s, sub) then
      assert OccursAt(s, sub, 0);
      true
    else
      var b := Includes(s[1..], sub);
      if b then
        assert exists k :: OccursAt(s, sub, k) by {
          var k :| OccursAt(s[1..], sub, k);
          assert s[1..][k..k + |sub|] == s[k + 1..k + 1 + |sub|];
          assert OccursAt(s, sub, k + 1);
        }
        b
      else
        assert !OccursAt(s, sub, 0);
        forall k | 1 <= k && OccursAt(s, sub, k)
          ensures OccursAt(s[1..], sub, k - 1)
        {
          assert s[1..][k - 1..k - 1 + |sub|] == s[k..k + |sub|];
        }
        b
  }

  /** `s.lastIndexOf(c)` for a single character: the greatest index holding
      `c`, or -1 when `c` does not occur. */
  function LastIndexOf(s: string, c: char): (r: int)
    ensures -1 <= r < |s|
    ensures r >= 0 ==> s[r] == c
    ensures forall j :: r < j < |s| ==> s[j] != c
  {
    if |s| == 0 then -1
    else if s[|s| - 1] == c then |s| - 1
    else LastIndexOf(s[..|s| - 1], c)
  }

  /** `s.substring(1)`: everything but the first character; the empty
      string stays empty. */
  function DropFirst(s: string): (r: string)
    ensures |s| > 0 ==> [s[0]] + r == s
    ensures |s| == 0 ==> r == []
  {
    if |s| == 0 then s else s[1..]
  }
}

=== FILE: upload_route.dfy ===
/** `POST /api/upload`: an ordered validator over the request followed by a
    single-entry write into the `videos` directory. */
module UploadRoute {
  import opened Common
  import opened Text
  import opened NodePath
  import opened Storage
  import opened Http

  const MultipartType := "multipart/form-data"
  const VideoTypePrefix := "video/"
  /** The 50 MiB limit; a file of exactly this size is accepted. */
  const MaxFileSize := 50 * 1024 * 1024
  const SuccessMessage := "File uploaded successfully"

  /** A `File` entry of the form: its name, its `type` and its contents.
      `file.size` is the contents' length. The `type` is what the runtime's
      `File` reports, which is the part's declared type after `BlobType`
      has normalised it, not the declaration itself. */
  datatype FilePart = FilePart(name: string, mediaType: string, bytes: Bytes)

  /** A character a `Blob` type may hold: U+0020 to U+007E. */
  predicate IsTypeChar(c: char) {
    ' ' <= c <= '~'
  }

  /** ASCII lower case of one character; anything else is kept. */
  function AsciiLower(c: char): (l: char)
    ensures !('A' <= l <= 'Z')
    ensures l == c || ('A' <= c <= 'Z' && 'a' <= l <= 'z')
  {
    if 'A' <= c <= 'Z' then (c as int + 32) as char else c
  }

  /** `s` with every ASCII capital lower-cased. */
  function LowerAll(s: string): (r: string)
    ensures |r| == |s|
    ensures forall i :: 0 <= i < |r| ==> !('A' <= r[i] <= 'Z')
  {
    seq(|s|, i requires 0 <= i < |s| => AsciiLower(s[i]))
  }

  /** A type a `Blob` can report: type characters only, none of them an
      ASCII capital. */
  predicate IsBlobType(t: string) {
    forall i :: 0 <= i < |t| ==> IsTypeChar(t[i]) && !('A' <= t[i] <= 'Z')
  }

  /** The `type` of the `File` Node.js builds for a part that declared
      `declared`, by the rule of section 3.1 of the W3C File API: the
      declaration lower-cased, or the empty string when it holds a
      character outside U+0020 to U+007E. */
  function BlobType(declared: string): (t: string)
    ensures IsBlobType(t)
    ensures t == "" || (|t| == |declared| && forall i :: 0 <= i < |t| ==> t[i] == AsciiLower(declared[i]))
    ensures (forall i :: 0 <= i < |declared| ==> IsTypeChar(declared[i])) ==> |t| == |declared|
  {
    if forall i :: 0 <= i < |declared| ==> IsTypeChar(declared[i]) then LowerAll(declared) else ""
  }

  /** A reported type is already normal: building a `File` from it again
      reports it unchanged. */
  lemma BlobTypeIsIdempotent(declared: string)
    ensures BlobType(BlobType(declared)) == BlobType(declared)
  {
    var t := BlobType(declared);
    assert LowerAll(t) == t;
  }

  /** The video check sees the normalised type: a part declared
      `Video/MP4` reports `video/mp4` and passes it. */
  lemma CapitalisedTypeIsLowered()
    ensures BlobType("Video/MP4") == "video/mp4"
    ensures StartsWith(BlobType("Video/MP4"), VideoTypePrefix)
  {
    var l := LowerAll("Video/MP4");
    assert AsciiLower('V') == 'v' && AsciiLower('M') == 'm' && AsciiLower('P') == 'p';
    assert l[0] == 'v' && l[6] == 'm' && l[7] == 'p';
    assert l == "video/mp4";
  }

  /** A declaration with a character beyond U+007E reports the empty
      type, which fails the video check. */
  lemma WideTypeIsDropped()
    ensures BlobType("video/mp4\U{E9}") == ""
    ensures !StartsWith(BlobType("video/mp4\U{E9}"), VideoTypePrefix)
  {
    assert !IsTypeChar("video/mp4\U{E9}"[9]);
  }

  /** The value `formData.get('file')` returns: a file, or a plain text
      field that happens to be called `file`. */
  datatype FieldValue = FileField(file: FilePart) | TextField(text: string)

  /** The result of `request.formData()`: it throws on a body it cannot
      parse, and otherwise yields the first `file` entry, if any. */
  datatype Form = Unparseable | Parsed(file: Option<FieldValue>)

  /** What the handler reads from the request: the `content-type` header,
      if sent, and the form body. */
  datatype Request = Request(contentType: Option<string>, form: Form)

  /** `request.headers.get('content-type') || ''`: the header as sent, an
      absent one reading as the empty string. */
  function ContentTypeHeader(req: Request): string {
    match req.contentType
    case Some(h) => h
    case None => ""
  }

  /** The four client errors, in the order they are checked. */
  datatype Rejection = InvalidContentType | NoFileUploaded | NotAVideo | TooLarge

  /** The fixed text of each client error. */
  function Reason(why: Rejection): string {
    match why
    case InvalidContentType => "Invalid content type"
    case NoFileUploaded => "No file uploaded"
    case NotAVideo => "File is not a video"
    case TooLarge => "File size exceeds 50MB"
  }

  /** The outcome of validation: the file to store, a client error, or an
      exception that ends in the handler's catch-all. */
  datatype Verdict = Accepted(file: FilePart) | Rejected(why: Rejection) | Thrown

  /** The header contains `multipart/form-data` somewhere; an absent header
      counts as the empty string. */
  ghost predicate DeclaresMultipart(req: Request) {
    exists k :: OccursAt(ContentTypeHeader(req), MultipartType, k)
  }

  /** There is no `file` entry, or it is the empty string, which is falsy. */
  predicate LacksFile(req: Request) {
    req.form.Parsed? &&
    (req.form.file.None? || req.form.file.value == TextField(""))
  }

  /** Reading `.type.startsWith` of a non-empty text field, or parsing an
      unparseable body, throws. */
  predicate Throws(req: Request) {
    req.form.Unparseable? ||
    (req.form.file.Some? && req.form.file.value.TextField? && req.form.file.value.text != "")
  }

  /** The form carries the file part `f`. */
  predicate Carries(req: Request, f: FilePart) {
    req.form == Parsed(Some(FileField(f)))
  }

  /** The file part the form carries, if its `file` entry is a file. */
  function Part(req: Request): (p: Option<FilePart>)
    ensures p.Some? ==> Carries(req, p.value)
    ensures p.None? ==> forall f :: !Carries(req, f)
  {
    if req.form.Parsed? && req.form.file.Some? && req.form.file.value.FileField? then
      Some(req.form.file.value.file)
    else None
  }

  /** The four checks of src/app/api/upload/route.js, lines 8-49, first
      failure wins. Only a video part within the size limit, in a
      multipart request, is accepted. */
  function Validate(req: Request): (v: Verdict)
    ensures v.Accepted? ==>
      && DeclaresMultipart(req)
      && Carries(req, v.file)
      && StartsWith(v.file.mediaType, VideoTypePrefix)
      && |v.file.bytes| <= MaxFileSize
  {
    if !Includes(ContentTypeHeader(req), MultipartType) then
      Rejected(InvalidContentType)
    else
      match req.form
      case Unparseable => Thrown
      case Parsed(None) => Rejected(NoFileUploaded)
      case Parsed(Some(TextField(text))) =>
        if text == "" then Rejected(NoFileUploaded) else Thrown
      case Parsed(Some(FileField(f))) =>
        if !StartsWith(f.mediaType, VideoTypePrefix) then Rejected(NotAVideo)
        else if |f.bytes| > MaxFileSize then Rejected(TooLarge)
        else Accepted(f)
  }

  /** The name the file is written under: the fixed stem followed by the
      uploaded name's extension. It is a plain file name that `GET` will
      recognise by its stem and serve with the same extension. */
  function DestinationName(name: string): (dest: string)
    ensures StartsWith(dest, VideoStem)
    ensures '/' !in dest
  {
    VideoNameKeepsExtension(name);
    assert (VideoStem + ExtName(name))[..|VideoStem|] == VideoStem;
    VideoStem + ExtName(name)
  }

  /** Validation runs its checks in order and reports the first that
      fails: each verdict holds exactly when every earlier check passed and
      its own failed. */
  lemma ChecksInOrder(req: Request)
    ensures Validate(req) == Rejected(InvalidContentType) <==> !DeclaresMultipart(req)
    ensures Validate(req) == Rejected(NoFileUploaded) <==> DeclaresMultipart(req) && LacksFile(req)
    ensures Validate(req) == Thrown <==> DeclaresMultipart(req) && Throws(req)
    ensures Validate(req) == Rejected(NotAVideo) <==>
      DeclaresMultipart(req) && Part(req).Some? && !StartsWith(Part(req).value.mediaType, VideoTypePrefix)
    ensures Validate(req) == Rejected(TooLarge) <==>
      DeclaresMultipart(req) && Part(req).Some? &&
      StartsWith(Part(req).value.mediaType, VideoTypePrefix) && |Part(req).value.bytes| > MaxFileSize
    ensures Validate(req).Accepted? <==>
      DeclaresMultipart(req) && Part(req).Some? &&
      StartsWith(Part(req).value.mediaType, VideoTypePrefix) && |Part(req).value.bytes| <= MaxFileSize
  {
  }

  /** A response together with the store after the request. */
  datatype Handled = Handled(response: Response, store: Store)

  /** `POST /api/upload` against the store. */
  function Upload(store: Store, req: Request): (out: Handled)
    ensures out.response.status == 200 || out.response.status == 400 || out.response.status == 500
    ensures out.response.status == 200 <==> Validate(req).Accepted?
    ensures out.response.status == 400 <==> Validate(req).Rejected?
    ensures Validate(req).Rejected? ==> out.response == JsonError(400, Reason(Validate(req).why))
    ensures out.response.status == 500 <==> Validate(req) == Thrown
    ensures out.response.status != 200 ==> out.store == store
    ensures out.response.status == 200 ==> out.response == Response(200, JsonType, Message(SuccessMessage))
    // On success the directory exists, holding the file under its
    // destination name, and nothing else in it has changed.
    ensures Validate(req).Accepted? ==>
      out.store.Some? &&
      WritesOnly(Contents(store), out.store.value, DestinationName(Validate(req).file.name), Validate(req).file.bytes)
  {
    match Validate(req)
    case Rejected(why) => Handled(JsonError(400, Reason(why)), store)
    case Thrown => Handled(InternalError(), store)
    case Accepted(f) =>
      var dir := Contents(store);  // `mkdir -p` leaves an existing directory alone
      Handled(Response(200, JsonType, Message(SuccessMessage)),
              Some(dir[DestinationName(f.name) := f.bytes]))
  }

  /** Whatever the form holds, a request without `multipart/form-data` in
      its content type is refused first and changes nothing. */
  lemma ContentTypeCheckedFirst(store: Store, req: Request)
    requires !Includes(ContentTypeHeader(req), MultipartType)
    ensures Upload(store, req) == Handled(JsonError(400, "Invalid content type"), store)
  {
  }

  /** A non-video is refused for its type even when it is also too large. */
  lemma TypeCheckedBeforeSize(store: Store, req: Request, f: FilePart)
    requires Includes(ContentTypeHeader(req), MultipartType)
    requires Carries(req, f)
    requires !StartsWith(f.mediaType, VideoTypePrefix)
    ensures Upload(store, req) == Handled(JsonError(400, "File is not a video"), store)
  {
  }

  /** The size limit is inclusive: 52428800 bytes pass, one more fails. */
  lemma SizeLimitIsInclusive(store: Store, req: Request, f: FilePart)
    requires Includes(ContentTypeHeader(req), MultipartType)
    requires Carries(req, f) && StartsWith(f.mediaType, VideoTypePrefix)
    ensures MaxFileSize == 52428800
    ensures Upload(store, req).response.status == 200 <==> |f.bytes| <= 52428800
    ensures |f.bytes| > 52428800 ==>
      Upload(store, req) == Handled(JsonError(400, "File size exceeds 50MB"), store)
  {
  }

  /** Repeating a request changes nothing more: the second upload answers
      the same and leaves the store as the first left it. */
  lemma UploadIsIdempotent(store: Store, req: Request)
    ensures Upload(Upload(store, req).store, req) == Upload(store, req)
  {
    var once := Upload(store, req);
    var twice := Upload(once.store, req);
    if Validate(req).Accepted? {
      var f := Validate(req).file;
      var dest := DestinationName(f.name);
      var d := Contents(store)[dest := f.bytes];
      assert once.store == Some(d);
      assert Contents(once.store) == d;
      assert d[dest := f.bytes] == d;
    }
  }
}

=== FILE: video_route.dfy ===
/** `GET /api/video`: list the `videos` directory, take the first name
    starting with the stem, and answer with that file's bytes. */
module VideoRoute {
  import opened Common
  import opened Text
  import opened NodePath
  import opened Storage
  import opened Http

  const NotFoundMessage := "Video file not found"
  const VideoMediaPrefix := "video/"

  /** `l[i]` is the first name in `l` starting with `prefix`. */
  ghost predicate FirstWith(l: seq<string>, prefix: string, i: int) {
    && 0 <= i < |l|
    && StartsWith(l[i], prefix)
    && (forall j :: 0 <= j < i ==> !StartsWith(l[j], prefix))
  }

  /** `l.find(name => name.startsWith(prefix))`. */
  function Find(l: seq<string>, prefix: string): (r: Option<string>)
    ensures r.None? <==> forall i :: 0 <= i < |l| ==> !StartsWith(l[i], prefix)
    ensures r.Some? ==> exists i :: FirstWith(l, prefix, i) && l[i] == r.value
  {
    if |l| == 0 then None
    else if StartsWith(l[0], prefix) then
      assert FirstWith(l, prefix, 0);
      Some(l[0])
    else
      var r := Find(l[1..], prefix);
      if r.Some? then
        assert exists i :: FirstWith(l, prefix, i) && l[i] == r.value by {
          var i :| FirstWith(l[1..], prefix, i) && l[1..][i] == r.value;
          assert FirstWith(l, prefix, i + 1);
        }
        r
      else
        assert forall i :: 1 <= i < |l| ==> l[i] == l[1..][i - 1];
        r
  }

  /** The `Content-Type` of a served file: `video/` followed by its
      extension without the leading dot. */
  function MediaType(name: string): (t: string)
    ensures ExtName(name) == "" ==> t == VideoMediaPrefix
    ensures ExtName(name) != "" ==> t == VideoMediaPrefix + ExtName(name)[1..]
    // Always a `video/` type whose subtype holds no slash and no dot, from
    // which the extension can be read back.
    ensures StartsWith(t, VideoMediaPrefix)
    ensures '/' !in t[|VideoMediaPrefix|..] && '.' !in t[|VideoMediaPrefix|..]
    ensures ExtName(name) != "" ==> ExtName(name) == "." + t[|VideoMediaPrefix|..]
  {
    var e := ExtName(name);
    var t := VideoMediaPrefix + DropFirst(e);
    assert t[..|VideoMediaPrefix|] == VideoMediaPrefix;
    assert t[|VideoMediaPrefix|..] == DropFirst(e);
    assert e != "" ==> e == [e[0]] + e[1..];
    t
  }

  /** Some file of `d` has a name starting with the stem. */
  ghost predicate HasVideo(d: Dir) {
    exists k :: k in d && StartsWith(k, VideoStem)
  }

  /** `GET /api/video` against the store, `listing` being the order in
      which `readdir` returns the directory's names. A missing directory
      makes `readdir` throw; so does the `Response` constructor when the
      content type it is given is not a valid header value. */
  function Get(store: Store, listing: seq<string>): (r: Response)
    requires store.Some? ==> IsListing(listing, store.value)
    ensures r.status == 200 || r.status == 404 || r.status == 500
    ensures r.status == 500 <==>
      || store.None?
      || exists i :: FirstWith(listing, VideoStem, i) && !ValidHeaderValue(MediaType(listing[i]))
    ensures r.status == 500 ==> r == InternalError()
    // Whether a video is found does not depend on the listing order.
    ensures r.status == 404 <==> store.Some? && !HasVideo(store.value)
    ensures r.status == 404 ==> r == JsonError(404, NotFoundMessage)
    // What is served is the first stem-named file of the listing, with
    // its content type as the `Headers` normalise it.
    ensures r.status == 200 ==>
      store.Some? &&
      exists i :: FirstWith(listing, VideoStem, i) && ValidHeaderValue(MediaType(listing[i])) &&
        r == Response(200, NormalizeHeaderValue(MediaType(listing[i])), Raw(store.value[listing[i]]))
  {
    match store
    case None => InternalError()
    case Some(dir) =>
      match Find(listing, VideoStem)
      case None =>
        assert !HasVideo(dir) by {
          forall k | k in dir ensures !StartsWith(k, VideoStem) {
            var i :| 0 <= i < |listing| && listing[i] == k;
          }
        }
        JsonError(404, NotFoundMessage)
      case Some(name) =>
        FileResponse(MediaType(name), dir[name])
  }

  /** Before any upload there is no `videos` directory, and playback
      fails with 500, not 404; an existing but empty directory gives 404. */
  lemma NothingStoredYet(listing: seq<string>)
    ensures Get(None, listing) == InternalError()
    ensures Get(Some(map[]), []) == JsonError(404, NotFoundMessage)
  {
  }

  /** When exactly one stored name starts with the stem, every listing
      order serves that file. */
  lemma OnlyVideoIsServed(d: Dir, name: string, listing: seq<string>)
    requires name in d && StartsWith(name, VideoStem)
    requires forall k :: k in d && StartsWith(k, VideoStem) ==> k == name
    requires IsListing(listing, d)
    ensures Get(Some(d), listing) == FileResponse(MediaType(name), d[name])
  {
    assert HasVideo(d);
  }

  /** With two stem-named files stored, the listing order decides which
      one is served: each of them is served under some order. */
  lemma ServedFileDependsOnOrder(d: Dir, a: string, b: string)
    requires a in d && b in d && a != b
    requires StartsWith(a, VideoStem) && StartsWith(b, VideoStem)
    ensures exists l :: IsListing(l, d) && Get(Some(d), l) == FileResponse(MediaType(a), d[a])
    ensures exists l :: IsListing(l, d) && Get(Some(d), l) == FileResponse(MediaType(b), d[b])
  {
    var la := ListingStartingWith(d, a);
    assert FirstWith(la, VideoStem, 0);
    var lb := ListingStartingWith(d, b);
    assert FirstWith(lb, VideoStem, 0);
  }

  /** The content type drops the extension's dot; a name without an
      extension is served as `video/`. */
  lemma MediaTypeExamples()
    ensures MediaType("video.mp4") == "video/mp4"
    ensures MediaType("video") == "video/"
  {
    assert TrimTrailingSlashes("video.mp4") == "video.mp4";
    assert LastIndexOf("video.mp4", '/') == -1;
    assert "video.mp4"[5] == '.';
    assert LastIndexOf("video.mp4", '.') == 5;
    assert ExtName("video.mp4") == ".mp4";
    assert TrimTrailingSlashes("video") == "video";
    assert LastIndexOf("video", '/') == -1;
    assert '.' !in "video";
    assert LastIndexOf("video", '.') == -1;
  }

  /** A stored video whose extension is an emoji cannot be sent: its
      content type is not a byte string, the `Response` constructor
      throws, and the answer is 500 even though the file exists. */
  lemma UnsendableExtensionFails()
    ensures var name := "video.\U{1F3AC}";
      Get(Some(map[name := [1]]), [name]) == InternalError()
  {
    var name := "video.\U{1F3AC}";
    assert TrimTrailingSlashes(name) == name;
    assert LastIndexOf(name, '/') == -1;
    assert name[5] == '.';
    assert LastIndexOf(name, '.') == 5;
    assert ExtName(name) == ".\U{1F3AC}";
    assert MediaType(name) == "video/\U{1F3AC}";
    WideCharacterIsRefused();
    assert StartsWith(name, VideoStem);
  }
}
